=== FILE: README.md ===
# Series catalogue dashboard: list, paging, modal and session logic

This project models the sequential logic behind a React administration
dashboard for a catalogue of TV series and their categories. The screens
themselves are markup and HTTP calls. Beneath them sits a small core:

- **List reconciliation** (`IdList`, `CrudHook`). The generic list hook keeps
  the items of one endpoint, a loading flag and the last fetch error. After a
  request succeeds it appends the created entity, replaces items by id, or
  filters them out by id. A failed request throws before the update, so the
  list is left as it was.
- **Paging** (`Paging`, `PaginationView`). The page count is `ceil(n / size)`.
  The visible items are a JavaScript `slice`. The home screen guards its
  previous/next moves. The category screen clamps them, which takes an empty
  list to page 0. The numbered page bar lists pages 1..N and disables the
  current one.
- **Screens** (`HomePage`, `CategoryPage`, `SeriesPage`). Each is a class
  whose fields are the screen's React state and whose methods are its
  handlers.
- **Shared state** (`ModalContext`, `AuthContext`). The modal context tracks
  which form is open and which series it edits. The auth provider holds the
  token, the user, the loading flag, the session store (`sessionStorage`)
  and the token installed on the API client.
- **Route gate** (`ProtectedRoute`). It turns `(loading, token)` into a
  placeholder, the protected outlet, or a redirect to `/login`. It is also
  followed across page loads, logins and logouts.
- **Category form** (`CategoryFormModal`). It resets its field when it
  becomes visible, rejects names shorter than two characters, and chooses
  create or update. It calls `onSuccess` and then `onClose` only after the
  request succeeds.

The network is not modelled. A handler returns the request it issues as a
value, and each request's settlement arrives as a parameter: `Reply<T>` is
`Ok(value)` or `Failed(message)`. `JSON.parse` and `JSON.stringify` on the
stored user are parameters too. So is the session store's content at page
load.

Where the code departs from what a list screen is usually expected to do,
the model follows the code:

- A paged list screen is usually expected to reclamp its page when the list
  shrinks. The home and category screens do not: deleting the only series on
  the last page leaves the screen on an empty page past the end
  (`HomePage.DeleteCanStrandPage`, `HomePage.DeleteStrandsScreen`).
- A failed delete would be expected to leave the list alone. On the home
  screen, `deleteSerie` swallows its own failure, so the local filter always
  runs.
- On the home screen, `getAllSeries` also swallows failures and returns `[]`.
  So a successful save followed by a failed refetch empties the series list.
- A successful refresh would be expected to clear an earlier error. The list
  hook never clears `error`.
- On the category screen, `Math.min(p + 1, totalPages)` with an empty list
  takes page 1 to page 0. The next button is enabled there, because `1 !== 0`
  (`Paging.EmptyListNextGivesPageZero`).

## Model

| member | source | states |
|---|---|---|
| `IdList.Append` | src/hooks/useCrud.ts:21-24 | create appends the server's entity: one longer, the old items unchanged in front, the new one last |
| `IdList.ReplaceById` | src/hooks/useCrud.ts:26-31 | update keeps the length; every item with the id becomes the reply, every other item stays in its place |
| `IdList.RemoveById` | src/hooks/useCrud.ts:33-36 | remove leaves no item with the id and keeps every item without it; never longer |
| `IdList.RemoveConcat` | src/hooks/useCrud.ts:35 | filtering distributes over concatenation, so the surviving items keep their relative order |
| `IdList.RemoveSingleton` | src/hooks/useCrud.ts:35 | a single item survives exactly when its id differs |
| `IdList.RemoveAbsent` | src/hooks/useCrud.ts:35 | removing an id no item carries leaves the list unchanged |
| `IdList.RemoveIdempotent` | src/hooks/useCrud.ts:33-36 | removing the same id twice is the same as removing it once |
| `IdList.RemoveMultiset` | src/hooks/useCrud.ts:35 | each item keeps its multiplicity unless it carries the id, in which case it has none left |
| `IdList.RemoveLeavesNone` | src/hooks/useCrud.ts:35 | after a remove, no item carries the id |
| `IdList.AppendCountsOnce` | src/hooks/useCrud.ts:23 | a created entity whose id was new appears exactly once |
| `IdList.RemoveAfterAppend` | src/hooks/useCrud.ts:21-36 | removing a just-created entity's id gives the same list as removing that id before the create |
| `IdList.ReplaceAbsent` | src/hooks/useCrud.ts:28-30 | replacing an id no item carries leaves the list unchanged |
| `IdList.ReplaceIdempotent` | src/hooks/useCrud.ts:28-30 | replacing twice with the same reply is replacing once |
| `IdList.CountIdConcat` | src/hooks/useCrud.ts:23 | the number of items with an id adds up over concatenation |
| `CrudHook.ItemPath` | src/hooks/useCrud.ts:27-34 | the item path is the endpoint, a slash, then the id, which can be read back from it |
| `CrudHook.CrudList.constructor` | src/hooks/useCrud.ts:5-7 | no items, not loading, no error |
| `CrudHook.CrudList.BeginFetchAll` | src/hooks/useCrud.ts:9-12 | loading is raised while page 0 of size 6 is requested; items and error untouched |
| `CrudHook.CrudList.SettleFetchAll` | src/hooks/useCrud.ts:13-18 | a reply replaces the items wholesale and keeps an earlier error; a failure records its message and keeps the items; loading is false in both outcomes |
| `CrudHook.CrudList.FetchAll` | src/hooks/useCrud.ts:9-19 | the whole fetch: the request, then the settlement above |
| `CrudHook.CrudList.Create` | src/hooks/useCrud.ts:21-24 | POSTs to the endpoint; on success the reply is appended; on failure the error propagates and the items are unchanged |
| `CrudHook.CrudList.Update` | src/hooks/useCrud.ts:26-31 | PUTs to `endpoint/id`; on success items with the id are replaced; on failure the error propagates and nothing changes |
| `CrudHook.CrudList.Remove` | src/hooks/useCrud.ts:33-36 | DELETEs `endpoint/id`; on success items with the id are filtered out; on failure nothing changes |
| `Paging.TotalPages` | src/pages/Home.tsx:116 | `ceil(count / size)`: the pages hold every item, the last page is not empty, and there are no pages exactly for an empty list |
| `Paging.PageWithinTotal` | src/pages/CategoryPage.tsx:73-77 | a page number at least 1 is within the page count exactly when the page starts before the end of the list |
| `Paging.SliceIndex` | src/pages/CategoryPage.tsx:74-77 | a `slice` index: negative indices count back from the end, and the result is clipped to [0, length] |
| `Paging.JsSlice` | src/pages/CategoryPage.tsx:74-77 | `slice(start, end)` is the clipped range, or empty when the clipped end is not past the clipped start |
| `Paging.PageItems` | src/pages/Home.tsx:117-118 | a page never shows more than `size` items, and only items of the list; its exact content is stated by `Paging.PageItemsInRange`, `Paging.PageItemsPastEnd` and `Paging.PageItemsPageZero` |
| `Paging.PageItemsInRange` | src/pages/Home.tsx:117-118 | a page in [1, totalPages] shows `items[(p-1)*size .. min(len, p*size))`, between 1 and `size` items |
| `Paging.PageItemsPastEnd` | src/pages/Home.tsx:117-118 | a page past the last shows nothing |
| `Paging.PageItemsPageZero` | src/pages/CategoryPage.tsx:74-77 | page 0 shows nothing, because its end index is 0 |
| `Paging.PagesCover` | src/pages/Home.tsx:116-118 | the first k pages, one after another, are the list's prefix of length `min(len, k*size)` |
| `Paging.AllPagesAreTheList` | src/pages/Home.tsx:116-118 | all pages together are the whole list, in order, with no overlap |
| `Paging.GuardedPrevious` | src/pages/Home.tsx:130-132 | one step back above page 1; no change at or below it |
| `Paging.GuardedNext` | src/pages/Home.tsx:134-136 | one step forward below the last page; no change at or past it |
| `Paging.ClampedPrevious` | src/pages/CategoryPage.tsx:126 | `max(p-1, 1)`: never below 1, one step back above page 1, and page 1 at or below page 1 |
| `Paging.ClampedNext` | src/pages/CategoryPage.tsx:136 | `min(p+1, totalPages)`: never past totalPages, one step forward below it, and exactly totalPages at or above it (0 on an empty list) |
| `Paging.GuardedWalkInRange` | src/pages/Home.tsx:130-136 | on an unchanged list, any sequence of previous/next moves from a page in [1, max(1, totalPages)] stays in that range |
| `Paging.ClampedWalkInRange` | src/pages/CategoryPage.tsx:126-137 | with at least one page, any sequence of clamped moves from a page in [1, totalPages] stays in that range |
| `Paging.EmptyListNextGivesPageZero` | src/pages/CategoryPage.tsx:136-137 | an empty category list has 0 pages; next from page 1 gives page 0; previous from 0 gives 1 |
| `Paging.ClampedWalkEmpty` | src/pages/CategoryPage.tsx:126-137 | on an empty category list, every walk from page 0 or 1 stays in {0, 1} |
| `Paging.TenSeriesScenario` | src/pages/Home.tsx:134-136 | 10 series make 3 pages of 4, and next on page 3 stays on page 3 |
| `PaginationView.PageNumbers` | src/components/Pagination.tsx:10 | the page list has length totalPages and holds i+1 at index i |
| `PaginationView.Render` | src/components/Pagination.tsx:8-18 | nothing is rendered exactly when totalPages ≤ 1 |
| `PaginationView.Click` | src/components/Pagination.tsx:17 | clicking the i-th button reports page i+1, a page in [1, totalPages] |
| `PaginationView.RenderLayout` | src/components/Pagination.tsx:10-18 | the bar has one button per page 1..totalPages, in order, disabled exactly when it is the current page |
| `PaginationView.ClicksInRange` | src/components/Pagination.tsx:10-17 | every button shows a page in [1, totalPages], clicking it reports that page, and consecutive buttons differ by one |
| `PaginationView.DisabledRun` | src/components/Pagination.tsx:18 | among buttons numbered lo, lo+1, …, the disabled ones are the current page if it falls in the run, and none otherwise |
| `PaginationView.ExactlyOneDisabled` | src/components/Pagination.tsx:18 | with the current page in [1, totalPages] exactly one button is disabled, the current page's; otherwise none is |
| `ModalContext.ModalProvider.constructor` | src/context/ModalContext.tsx:19-20 | no modal open and no series bound |
| `ModalContext.ModalProvider.OpenModal` | src/context/ModalContext.tsx:22-29 | the type is always taken; the series is bound if and only if the type is the series form and data is present; a series is bound only while the series form is open |
| `ModalContext.ModalProvider.CloseModal` | src/context/ModalContext.tsx:31-34 | both fields become null whatever they were, so closing is idempotent |
| `HomePage.AllSeriesOrEmpty` | src/api/SerieService.ts:4-12 | the series fetch yields the reply, or `[]` when the request failed |
| `HomePage.Home.constructor` | src/pages/Home.tsx:24-28 | empty lists, nothing to delete, loading, page 1 |
| `HomePage.Home.LoadSeries` | src/pages/Home.tsx:39-52 | the fetched series, or `[]` on failure, become the list; loading ends |
| `HomePage.Home.LoadCategories` | src/pages/Home.tsx:54-65 | a reply replaces the categories; a failure keeps them |
| `HomePage.Home.HandleSubmit` | src/pages/Home.tsx:67-84 | updates the bound series or creates one; after a successful write the list is refetched (`[]` if the refetch fails), after a failed one it is unchanged; the modal is closed in every outcome |
| `HomePage.Home.HandleCategorySubmit` | src/pages/Home.tsx:86-103 | always a create; only when the create and the refetch both succeed are the categories replaced and the modal closed; otherwise nothing changes |
| `HomePage.Home.EditSerie` | src/pages/Home.tsx:173 | opens the series form bound to that series |
| `HomePage.Home.AskDelete` | src/pages/Home.tsx:181 | marks the series for deletion; nothing else changes |
| `HomePage.Home.CancelDelete` | src/pages/Home.tsx:236 | clears the pending deletion; nothing else changes |
| `HomePage.Home.HandleDeleteConfirmed` | src/pages/Home.tsx:105-114 | issues the delete, then filters out every series with the id whatever the server said, and clears the pending deletion |
| `HomePage.Home.GoToPrevious` | src/pages/Home.tsx:130-132 | the guarded step back; keeps the page in [1, max(1, totalPages)] |
| `HomePage.Home.TotalPages` | src/pages/Home.tsx:116 | `ceil(series / 4)`: the fewest pages of four that hold every series |
| `HomePage.Home.CurrentItems` | src/pages/Home.tsx:117-118 | at most four series; on a page in [1, totalPages] the one to four series from the page's start, past the last page none (through `Paging.PageItemsInRange` and `Paging.PageItemsPastEnd`) |
| `HomePage.Home.GoToNext` | src/pages/Home.tsx:134-136 | the guarded step forward; keeps the page in [1, max(1, totalPages)] |
| `HomePage.DeleteCanStrandPage` | src/pages/Home.tsx:105-118 | five series make two pages; with the fifth deleted they make one, and page 2 of the remaining list shows nothing |
| `HomePage.DeleteStrandsScreen` | src/pages/Home.tsx:105-118 | on the screen itself: five series loaded, page 2 opened and the fifth deleted leave the screen on page 2 of a single page, showing nothing |
| `CategoryPage.CategoryScreen.TotalPages` | src/pages/CategoryPage.tsx:73 | `ceil(categories / 6)`: the fewest pages of six that hold every category, 0 exactly for an empty list |
| `CategoryPage.CategoryScreen.CurrentItems` | src/pages/CategoryPage.tsx:74-77 | at most six categories; on a page in [1, totalPages] the one to six from the page's start, on page 0 or past the last page none (through `Paging.PageItemsInRange`, `Paging.PageItemsPastEnd` and `Paging.PageItemsPageZero`) |
| `CategoryPage.CategoryScreen.constructor` | src/pages/CategoryPage.tsx:17-26 | empty list, loading, nothing bound or pending, form hidden, page 1 |
| `CategoryPage.CategoryScreen.BeginFetch` | src/pages/CategoryPage.tsx:32-33 | loading is raised; nothing else changes |
| `CategoryPage.CategoryScreen.SettleFetch` | src/pages/CategoryPage.tsx:34-41 | a reply replaces the list; a failure keeps it; loading ends in both outcomes |
| `CategoryPage.CategoryScreen.FetchCategories` | src/pages/CategoryPage.tsx:32-42 | the whole fetch: loading raised, then the settlement above |
| `CategoryPage.CategoryScreen.HandleSubmit` | src/pages/CategoryPage.tsx:44-59 | updates the bound category or creates one; on success the form closes, the binding clears and the list is refetched; on failure nothing changes |
| `CategoryPage.CategoryScreen.HandleDeleteConfirmed` | src/pages/CategoryPage.tsx:61-71 | a successful delete refetches the list, a failed one leaves it; the pending deletion is cleared in both outcomes |
| `CategoryPage.CategoryScreen.EditCategory` | src/pages/CategoryPage.tsx:101-104 | binds the category and shows the form |
| `CategoryPage.CategoryScreen.CloseForm` | src/pages/CategoryPage.tsx:146 | hides the form and keeps the binding |
| `CategoryPage.CategoryScreen.AskDelete` | src/pages/CategoryPage.tsx:111 | marks the category for deletion |
| `CategoryPage.CategoryScreen.CancelDelete` | src/pages/CategoryPage.tsx:156 | clears the pending deletion |
| `CategoryPage.CategoryScreen.PreviousPage` | src/pages/CategoryPage.tsx:126 | the clamped step back; the page is at least 1 afterwards |
| `CategoryPage.CategoryScreen.NextPage` | src/pages/CategoryPage.tsx:136 | the clamped step forward; the page is at most totalPages afterwards (0 for an empty list) |
| `SeriesPage.SeriesScreen.constructor` | src/pages/SeriesPage.tsx:11-16 | no series, page 1 of 1, modal hidden, not editing, nothing selected |
| `SeriesPage.SeriesScreen.FetchSeries` | src/pages/SeriesPage.tsx:23-31 | requests the current page with limit 6; a reply sets the series and `totalPages = ceil(total / 6)`; a failure keeps both |
| `SeriesPage.SeriesScreen.ChangePage` | src/pages/SeriesPage.tsx:19-21 | the page from the bar (line 77) is stored; a different page is fetched through the effect, and the same page is not |
| `SeriesPage.SeriesScreen.HandleEdit` | src/pages/SeriesPage.tsx:33-37 | selected := the series, edit mode on, modal shown; edit mode implies a selection |
| `SeriesPage.SeriesScreen.NewSerie` | src/pages/SeriesPage.tsx:53-57 | nothing selected, edit mode off, modal shown |
| `SeriesPage.SeriesScreen.HandleCloseModal` | src/pages/SeriesPage.tsx:39-44 | all three modal fields reset and the current page refetched |
| `Replies.Truthy` | src/components/ProtectedRoute.tsx:11 | a nullable string is falsy exactly when it is null or empty (also `storedToken && storedUser`, src/context/AuthContext.tsx:35) |
| `Replies.Lookup` | src/context/AuthContext.tsx:33-34 | `getItem` yields a string exactly when the key is stored, and then the stored string |
| `AuthContext.AuthProvider.constructor` | src/context/AuthContext.tsx:28-30 | no user, no token, loading |
| `AuthContext.AuthProvider.RestoreSession` | src/context/AuthContext.tsx:32-46 | with both stored entries truthy the token is taken; a parseable user is taken too and the token installed; an unparseable one is removed from the store and the user keeps its value (null at mount); otherwise nothing is taken; loading ends in every case |
| `AuthContext.AuthProvider.Login` | src/context/AuthContext.tsx:48-71 | a reply sets token and user, stores both, and installs the token; a failure is rethrown with no state and no stored key changed |
| `AuthContext.AuthProvider.Logout` | src/context/AuthContext.tsx:73-79 | token and user null, both stored keys removed, the client's token cleared; token, user and the client's token are reset whatever they were, and the store loses exactly `jwt` and `user`, so a second logout changes nothing |
| `ProtectedRoute.Gate` | src/components/ProtectedRoute.tsx:7-11 | a placeholder while loading; otherwise the outlet if and only if the token is truthy, and a replacing redirect to `/login` if and only if it is not |
| `ProtectedRoute.PageLoad` | src/context/AuthContext.tsx:32-46 | while the session loads the gate neither shows the outlet nor redirects; afterwards it shows the outlet exactly when a token and a user are stored, and redirects to `/login` otherwise |
| `ProtectedRoute.LoginThenReload` | src/context/AuthContext.tsx:60-66 | a successful login followed by a page load restores the same token and user and lets the user through, provided parsing reads back what serialising wrote and the token is non-empty (a serialised user object is never empty) |
| `ProtectedRoute.LogoutThenReload` | src/context/AuthContext.tsx:73-79 | a logout followed by a page load redirects to `/login`, whatever the session held before |
| `CategoryFormModal.View` | src/components/CategoryFormModal.tsx:60-94 | nothing is rendered exactly when hidden; the input and both buttons are disabled exactly while submitting; the edit title shows exactly when a category is bound |
| `CategoryFormModal.CategoryForm.constructor` | src/components/CategoryFormModal.tsx:33-36 | the name starts empty |
| `CategoryFormModal.CategoryForm.Input` | src/components/CategoryFormModal.tsx:70-71 | typing sets the name |
| `CategoryFormModal.CategoryForm.OnVisibilityChange` | src/components/CategoryFormModal.tsx:38-41 | when visible the name resets to the bound category's name, or "" when creating; when hidden it is left alone |
| `CategoryFormModal.CategoryForm.HandleSubmit` | src/components/CategoryFormModal.tsx:16-58 | a name shorter than 2 characters sends nothing; otherwise it updates the bound category or creates one; `onSuccess` then `onClose` run exactly when the request succeeds, and a failure calls neither, so the modal stays open |

## Left out

- HTTP plumbing is not part of this model: the axios instances, the bearer interceptor, base URLs and response shapes. Each request is a value the handler returns, and its settlement is a parameter.
- The request bodies of the list hook's create and update (`Partial<T>`) are not modelled; only the path is.
- `setAuthToken` lives in a module that is not part of this model. It is taken to install the given token on the API client, or to clear it when called without one.
- `JSON.parse` is a parameter returning a user or nothing (nothing: it throws). A stored string that parses to a non-user value, such as `"null"`, is not distinguished from a user.
- The name-length rule counts Dafny characters. Zod counts UTF-16 code units, and these differ for characters outside the Basic Multilingual Plane.
- Page numbers are integers. JavaScript numbers are floating point, which never matters for the counts involved.
- The category screen's `fetchCategories` is not awaited after a save or a delete. The model settles it right after the save, with no other handler in between.
- Every request settles before the next handler runs. Overlapping requests and out-of-order replies are not modelled. `SeriesPage.SeriesScreen.ChangePage` and `SeriesPage.SeriesScreen.HandleCloseModal` settle `fetchSeries` inside the handler. In the source it runs from the `currentPage` effect, or un-awaited, and settles later. Two quick page changes can leave `series` showing page 2 while `currentPage` is 3. `CrudHook.CrudList.FetchAll` and `CrudHook.CrudList.Create` likewise settle one at a time. A `fetchAll` reply landing after a `create` would drop the created item.
- The update-after-unmount race, toasts, `console` logging and `setTimeout` delays are not modelled.
- Home's `openCategoryModal` and `onCategorySuccess` call a `fetchCategories` that is out of scope, so they are not modelled. Neither are the `modalCategoryVisible` and `categoryToEdit` state that only they set.
- Home's `editingCategory` is never provided by the modal context, so it is treated as always absent.
- The home and category screens pass `onSubmit`/`initialValue` to the category form modal (src/pages/CategoryPage.tsx:144-149, src/pages/Home.tsx:226-231), but the modal declares `onSuccess`/`categoryToEdit`. As wired, both are undefined, with three effects the model does not capture. After a successful request, `onSuccess()` throws, so the error toast shows and `onClose` never runs. An edit on the category screen sends a create, not an update. `Home.handleCategorySubmit` and `CategoryPage.handleSubmit` are never called. `CategoryFormModal.CategoryForm.HandleSubmit` is modelled with the modal's declared props, and the screens' submit handlers as they are written.
- Rendering is left out: the cards, the loading placeholder of the home screen, the empty-list messages, and the previous/next `disabled` attributes. Those attributes do not change the outcome of the handlers, whose own guards or clamps give the same page.
- `getSeries` falls back to `[]` and `0` (`json.series || []`, `json.totalCount || 0`). Its reply is taken with these fallbacks already applied.
- Not modelled: the login page with its localStorage writes and second request, the zod schemas of the other forms, the markup-only components, routing, and the `useCrud` consumers under `pages/Categories`.

=== FILE: auth_context.dfy ===
/** The authentication session: the current user and token, the flag that
    is up until the persisted session has been looked at, the session store
    (`sessionStorage`) and the bearer token installed on the API client. */
module AuthContext {
  import opened Replies

  datatype User = User(id: string, email: string)

  /** The body of a successful `POST /api/v1/login`. */
  datatype LoginReply = LoginReply(token: string, user: User)

  /** `POST /api/v1/login` with `{ email, senha }`. */
  datatype LoginRequest = LoginRequest(path: string, email: string, senha: string)

  const LoginPath := "/api/v1/login"
  /** Session-store key of the token. */
  const JwtKey := "jwt"
  /** Session-store key of the serialised user. */
  const UserKey := "user"

  class AuthProvider {
    var user: Option<User>
    var token: Option<string>
    var loading: bool
    /** `sessionStorage`, which outlives a page load. */
    var session: map<string, string>
    /** The token `setAuthToken` last installed on the API client (None: cleared). */
    var authHeader: Option<string>

    /** `useState(null)`, `useState(null)`, `useState(true)`, over whatever
        the session store and the API client hold at mount. */
    constructor (session: map<string, string>, authHeader: Option<string>)
      ensures user == None && token == None && loading
      ensures this.session == session && this.authHeader == authHeader
    {
      user := None;
      token := None;
      loading := true;
      this.session := session;
      this.authHeader := authHeader;
    }

    /** The mount effect. With a truthy stored token and user, the token is
        taken first; then the stored user is parsed (`parseUser` is
        `JSON.parse`, None where it throws): parsed, it becomes the user and
        the token is installed on the client; unparseable, the user stays as
        it was and the stored user is removed. Otherwise nothing is taken.
        Loading ends in every case. */
    method RestoreSession(parseUser: string -> Option<User>)
      modifies this
      ensures !loading
      ensures var storedToken, storedUser := Lookup(old(session), JwtKey), Lookup(old(session), UserKey);
              if Truthy(storedToken) && Truthy(storedUser) then
                token == storedToken
                && (parseUser(storedUser.value).Some? ==>
                      user == parseUser(storedUser.value) && authHeader == storedToken && session == old(session))
                && (parseUser(storedUser.value).None? ==>
                      user == old(user) && authHeader == old(authHeader) && session == old(session) - {UserKey})
              else
                token == old(token) && user == old(user)
                && authHeader == old(authHeader) && session == old(session)
    {
      var storedToken := Lookup(session, JwtKey);
      var storedUser := Lookup(session, UserKey);
      if Truthy(storedToken) && Truthy(storedUser) {
        token := storedToken;
        var parsed := parseUser(storedUser.value);
        if parsed.Some? {
          user := parsed;
          authHeader := storedToken;
        } else {
          session := session - {UserKey};
        }
      }
      loading := false;
    }

    /** `login`: on a reply, token and user are taken, the token is stored and
        installed, and the user is stored serialised (`stringify` is
        `JSON.stringify`). A failure is rethrown with nothing changed. */
    method Login(email: string, password: string, reply: Reply<LoginReply>, stringify: User -> string)
      returns (request: LoginRequest, outcome: Reply<()>)
      modifies this
      ensures request == LoginRequest(LoginPath, email, password)
      ensures reply.Ok? ==>
                outcome == Ok(())
                && token == Some(reply.value.token) && user == Some(reply.value.user)
                && session == old(session)[JwtKey := reply.value.token][UserKey := stringify(reply.value.user)]
                && authHeader == Some(reply.value.token)
      ensures reply.Failed? ==>
                outcome == Failed(reply.message)
                && token == old(token) && user == old(user)
                && session == old(session) && authHeader == old(authHeader)
      ensures loading == old(loading)
    {
      request := LoginRequest(LoginPath, email, password);
      match reply {
        case Ok(LoginReply(t, u)) =>
          token := Some(t);
          user := Some(u);
          session := session[JwtKey := t];
          authHeader := Some(t);
          session := session[UserKey := stringify(u)];
          outcome := Ok(());
        case Failed(message) =>
          outcome := Failed(message);
      }
    }

    /** `logout`: token, user and the client's token are reset whatever they
        were, and the store loses exactly `jwt` and `user`, so a second
        logout changes nothing. */
    method Logout()
      modifies this
      ensures token == None && user == None
      ensures session == old(session) - {JwtKey, UserKey}
      ensures JwtKey !in session && UserKey !in session
      ensures authHeader == None
      ensures loading == old(loading)
    {
      token := None;
      user := None;
      session := session - {JwtKey};
      session := session - {UserKey};
      authHeader := None;
    }
  }
}

=== FILE: category_form_modal.dfy ===
/** The category form modal: a single name field, reset whenever the modal
    becomes visible, checked for length before anything is sent, and a
    submit that creates or updates and only then tells the parent. */
module CategoryFormModal {
  import opened Replies
  import opened Entities

  /** The parent's callbacks, in the order the modal invokes them. */
  datatype Callback = OnSuccess | OnClose

  /** The schema's `min(2)` on the name. */
  const MinNameLength: nat := 2

  /** What the modal renders: its title, the submit label, and which
      controls are disabled. */
  datatype FormView = FormView(
    title: string,
    submitLabel: string,
    inputDisabled: bool,
    cancelDisabled: bool,
    submitDisabled: bool)

  /** The render: nothing while hidden; otherwise the edit or create wording,
      with every control disabled while a submission is in flight. */
  function View(visible: bool, categoryToEdit: Option<Category>, isSubmitting: bool): (v: Option<FormView>)
    ensures v.None? <==> !visible
    ensures v.Some? ==> v.value.inputDisabled == isSubmitting
                        && v.value.cancelDisabled == isSubmitting
                        && v.value.submitDisabled == isSubmitting
    ensures v.Some? ==> (v.value.title == "Editar Categoria" <==> categoryToEdit.Some?)
  {
    if !visible then None
    else if categoryToEdit.Some? then Some(FormView("Editar Categoria", "Atualizar", isSubmitting, isSubmitting, isSubmitting))
    else Some(FormView("Nova Categoria", "Cadastrar", isSubmitting, isSubmitting, isSubmitting))
  }

  class CategoryForm {
    /** The form's `name` field. */
    var name: string

    /** `defaultValues: { name: "" }`. */
    constructor ()
      ensures name == ""
    {
      name := "";
    }

    /** What the user types. */
    method Input(text: string)
      modifies this
      ensures name == text
    {
      name := text;
    }

    /** The reset effect: on becoming (or staying) visible the field takes
        the bound category's name, or "" when creating; while hidden it is
        left alone. */
    method OnVisibilityChange(visible: bool, categoryToEdit: Option<Category>)
      modifies this
      ensures visible && categoryToEdit.Some? ==> name == categoryToEdit.value.name
      ensures visible && categoryToEdit.None? ==> name == ""
      ensures !visible ==> name == old(name)
    {
      if visible {
        name := if categoryToEdit.Some? then categoryToEdit.value.name else "";
      }
    }

    /** Submitting the form. A name shorter than two characters stops at
        validation: no request, no callback. Otherwise the bound category is
        updated, or a new one created, and only when that succeeds are
        `onSuccess` and then `onClose` called; a failure leaves the modal open. */
    method HandleSubmit(categoryToEdit: Option<Category>, reply: Reply<()>)
      returns (request: Option<CategoryRequest>, calls: seq<Callback>)
      ensures request.None? <==> |name| < MinNameLength
      ensures request.Some? && categoryToEdit.Some? ==> request.value == UpdateCategory(categoryToEdit.value.id, name)
      ensures request.Some? && categoryToEdit.None? ==> request.value == CreateCategory(name)
      ensures calls == [OnSuccess, OnClose] <==> request.Some? && reply.Ok?
      ensures calls == [] <==> request.None? || reply.Failed?
    {
      if |name| < MinNameLength {
        return None, [];
      }
      if categoryToEdit.Some? {
        request := Some(UpdateCategory(categoryToEdit.value.id, name));
      } else {
        request := Some(CreateCategory(name));
      }
      calls := [];
      if reply.Ok? {
        calls := calls + [OnSuccess];
        calls := calls + [OnClose];
      }
    }
  }
}

=== FILE: category_page.dfy ===
/** The category screen: the category list (paged six at a time with
    clamped previous/next), the form modal's visibility and bound category,
    and the category picked for deletion. */
module CategoryPage {
  import opened Replies
  import opened Entities
  import Paging

  class CategoryScreen {
    var categories: seq<Category>
    var loading: bool
    var categoryToEdit: Option<Category>
    var categoryToDelete: Option<Category>
    var modalVisible: bool
    var currentPage: int

    constructor ()
      ensures categories == [] && loading
      ensures categoryToEdit == None && categoryToDelete == None
      ensures !modalVisible && currentPage == 1
    {
      categories := [];
      loading := true;
      categoryToEdit := None;
      categoryToDelete := None;
      modalVisible := false;
      currentPage := 1;
    }

    /** `Math.ceil(categories.length / 6)`: the fewest pages of six that
        hold every category; 0 for an empty list. */
    function TotalPages(): (pages: nat)
      reads this
      ensures |categories| <= pages * Paging.CategoriesPerPage
      ensures pages > 0 ==> (pages - 1) * Paging.CategoriesPerPage < |categories|
      ensures pages == 0 <==> categories == []
    {
      Paging.TotalPages(|categories|, Paging.CategoriesPerPage)
    }

    /** `categories.slice((currentPage - 1) * 6, currentPage * 6)`: on a page
        in [1, totalPages] the categories from the page's start, one to six
        of them; on page 0 or past the last page nothing. */
    function CurrentItems(): (r: seq<Category>)
      reads this
      ensures |r| <= Paging.CategoriesPerPage
      ensures 1 <= currentPage <= TotalPages() ==>
                0 < |r| && r == categories[(currentPage - 1) * Paging.CategoriesPerPage .. Paging.Min(|categories|, currentPage * Paging.CategoriesPerPage)]
      ensures currentPage == 0 || currentPage > TotalPages() ==> r == []
    {
      if 1 <= currentPage <= TotalPages() then
        Paging.PageItemsInRange(categories, currentPage, Paging.CategoriesPerPage);
        Paging.PageItems(categories, currentPage, Paging.CategoriesPerPage)
      else if currentPage > TotalPages() then
        Paging.PageItemsPastEnd(categories, currentPage, Paging.CategoriesPerPage);
        Paging.PageItems(categories, currentPage, Paging.CategoriesPerPage)
      else if currentPage == 0 then
        Paging.PageItemsPageZero(categories, Paging.CategoriesPerPage);
        Paging.PageItems(categories, currentPage, Paging.CategoriesPerPage)
      else
        Paging.PageItems(categories, currentPage, Paging.CategoriesPerPage)
    }

    /** `fetchCategories` up to its await. */
    method BeginFetch()
      modifies this
      ensures loading
      ensures categories == old(categories) && currentPage == old(currentPage)
      ensures categoryToEdit == old(categoryToEdit) && categoryToDelete == old(categoryToDelete)
      ensures modalVisible == old(modalVisible)
    {
      loading := true;
    }

    /** `fetchCategories` after its await: a reply replaces the list, a
        failure keeps it; loading ends either way. */
    method SettleFetch(reply: Reply<seq<Category>>)
      modifies this
      ensures !loading
      ensures categories == if reply.Ok? then reply.value else old(categories)
      ensures currentPage == old(currentPage)
      ensures categoryToEdit == old(categoryToEdit) && categoryToDelete == old(categoryToDelete)
      ensures modalVisible == old(modalVisible)
    {
      if reply.Ok? {
        categories := reply.value;
      }
      loading := false;
    }

    /** The whole `fetchCategories`. */
    method FetchCategories(reply: Reply<seq<Category>>)
      modifies this
      ensures !loading
      ensures categories == if reply.Ok? then reply.value else old(categories)
      ensures currentPage == old(currentPage)
      ensures categoryToEdit == old(categoryToEdit) && categoryToDelete == old(categoryToDelete)
      ensures modalVisible == old(modalVisible)
    {
      BeginFetch();
      SettleFetch(reply);
    }

    /** `handleSubmit`: update the bound category or create one. On success
        the modal closes, the binding is cleared and the list is refetched
        (its own failure keeps the list); on failure nothing changes. */
    method HandleSubmit(name: string, write: Reply<()>, refetch: Reply<seq<Category>>)
      returns (request: CategoryRequest)
      modifies this
      ensures request == if old(categoryToEdit).Some?
                         then UpdateCategory(old(categoryToEdit).value.id, name)
                         else CreateCategory(name)
      ensures write.Ok? ==>
                !modalVisible && categoryToEdit == None && !loading
                && categories == (if refetch.Ok? then refetch.value else old(categories))
      ensures write.Failed? ==>
                modalVisible == old(modalVisible) && categoryToEdit == old(categoryToEdit)
                && loading == old(loading) && categories == old(categories)
      ensures categoryToDelete == old(categoryToDelete) && currentPage == old(currentPage)
    {
      if categoryToEdit.Some? {
        request := UpdateCategory(categoryToEdit.value.id, name);
      } else {
        request := CreateCategory(name);
      }
      if write.Ok? {
        modalVisible := false;
        categoryToEdit := None;
        FetchCategories(refetch);
      }
    }

    /** `handleDeleteConfirmed(id)`: a successful delete refetches the list;
        the pending deletion is cleared in every outcome. */
    method HandleDeleteConfirmed(id: int, delete: Reply<()>, refetch: Reply<seq<Category>>)
      returns (request: CategoryRequest)
      modifies this
      ensures request == DeleteCategory(id)
      ensures categoryToDelete == None
      ensures delete.Ok? ==> !loading && categories == (if refetch.Ok? then refetch.value else old(categories))
      ensures delete.Failed? ==> loading == old(loading) && categories == old(categories)
      ensures categoryToEdit == old(categoryToEdit) && modalVisible == old(modalVisible)
      ensures currentPage == old(currentPage)
    {
      request := DeleteCategory(id);
      if delete.Ok? {
        FetchCategories(refetch);
      }
      categoryToDelete := None;
    }

    /** A card's edit button: bind the category and show the form. */
    method EditCategory(c: Category)
      modifies this
      ensures categoryToEdit == Some(c) && modalVisible
      ensures categories == old(categories) && loading == old(loading)
      ensures categoryToDelete == old(categoryToDelete) && currentPage == old(currentPage)
    {
      categoryToEdit := Some(c);
      modalVisible := true;
    }

    /** The form's `onClose`: hides the form but keeps the binding. */
    method CloseForm()
      modifies this
      ensures !modalVisible
      ensures categoryToEdit == old(categoryToEdit)
      ensures categories == old(categories) && loading == old(loading)
      ensures categoryToDelete == old(categoryToDelete) && currentPage == old(currentPage)
    {
      modalVisible := false;
    }

    /** A card's delete button. */
    method AskDelete(c: Category)
      modifies this
      ensures categoryToDelete == Some(c)
      ensures categories == old(categories) && loading == old(loading)
      ensures categoryToEdit == old(categoryToEdit) && modalVisible == old(modalVisible)
      ensures currentPage == old(currentPage)
    {
      categoryToDelete := Some(c);
    }

    /** The delete dialog's cancel. */
    method CancelDelete()
      modifies this
      ensures categoryToDelete == None
      ensures categories == old(categories) && loading == old(loading)
      ensures categoryToEdit == old(categoryToEdit) && modalVisible == old(modalVisible)
      ensures currentPage == old(currentPage)
    {
      categoryToDelete := None;
    }

    /** `Anterior`: `Math.max(p - 1, 1)`, never below page 1. */
    method PreviousPage()
      modifies this
      ensures currentPage == Paging.ClampedPrevious(old(currentPage))
      ensures currentPage >= 1
      ensures categories == old(categories) && loading == old(loading)
      ensures categoryToEdit == old(categoryToEdit) && categoryToDelete == old(categoryToDelete)
      ensures modalVisible == old(modalVisible)
    {
      currentPage := Paging.Max(currentPage - 1, 1);
    }

    /** `Próxima`: `Math.min(p + 1, totalPages)`, never past the last page
        (which, for an empty list, is page 0). */
    method NextPage()
      modifies this
      ensures currentPage == Paging.ClampedNext(old(currentPage), TotalPages())
      ensures currentPage <= TotalPages()
      ensures categories == old(categories) && loading == old(loading)
      ensures categoryToEdit == old(categoryToEdit) && categoryToDelete == old(categoryToDelete)
      ensures modalVisible == old(modalVisible)
    {
      currentPage := Paging.Min(currentPage + 1, TotalPages());
    }
  }
}

=== FILE: crud_hook.dfy ===
/** The generic list hook: the items of one endpoint, a loading flag and the
    last fetch error. Every mutation is applied after its request settles,
    and only when it succeeded (an await that throws skips the update). */
module CrudHook {
  import opened Replies
  import IdList

  /** A request of the hook. The body of create/update (`Partial<T>`) is not
      modelled; the path is. */
  datatype HttpRequest =
    | GetPage(path: string, page: int, size: int)
    | Post(path: string)
    | Put(path: string)
    | Delete(path: string)

  /** `${endpoint}/${id}`: the endpoint, a slash, then the id, so the id can
      be read back from the path. */
  function ItemPath(endpoint: string, id: string): (path: string)
    ensures |path| == |endpoint| + 1 + |id|
    ensures path[..|endpoint|] == endpoint && path[|endpoint|] == '/'
    ensures path[|endpoint| + 1..] == id
  {
    endpoint + "/" + id
  }

  class CrudList<T(==)> {
    const endpoint: string
    /** `item.id`, which the hook compares with `===`. */
    const idOf: T -> string
    var items: seq<T>
    var loading: bool
    var error: Option<string>

    /** `useState([])`, `useState(false)`, `useState(null)`. */
    constructor (endpoint: string, idOf: T -> string)
      ensures this.endpoint == endpoint && this.idOf == idOf
      ensures items == [] && !loading && error == None
    {
      this.endpoint := endpoint;
      this.idOf := idOf;
      items := [];
      loading := false;
      error := None;
    }

    /** `fetchAll` up to its await: `loading` is raised and the first page
        (page 0, size 6) is requested. */
    method BeginFetchAll() returns (request: HttpRequest)
      modifies this
      ensures request == GetPage(endpoint, 0, 6)
      ensures loading
      ensures items == old(items) && error == old(error)
    {
      loading := true;
      request := GetPage(endpoint, 0, 6);
    }

    /** `fetchAll` after its await: a reply replaces the items wholesale, a
        failure records its message and keeps the items; `loading` drops in
        both cases. An earlier error is not cleared by a success. */
    method SettleFetchAll(reply: Reply<seq<T>>)
      modifies this
      ensures !loading
      ensures reply.Ok? ==> items == reply.value && error == old(error)
      ensures reply.Failed? ==> items == old(items) && error == Some(reply.message)
    {
      match reply {
        case Ok(data) => items := data;
        case Failed(message) => error := Some(message);
      }
      loading := false;
    }

    /** The whole `fetchAll`, as run on mount. */
    method FetchAll(reply: Reply<seq<T>>) returns (request: HttpRequest)
      modifies this
      ensures request == GetPage(endpoint, 0, 6)
      ensures !loading
      ensures reply.Ok? ==> items == reply.value && error == old(error)
      ensures reply.Failed? ==> items == old(items) && error == Some(reply.message)
    {
      request := BeginFetchAll();
      SettleFetchAll(reply);
    }

    /** `create`: on success the server's entity is appended; on failure the
        error propagates to the caller and nothing changes. */
    method Create(reply: Reply<T>) returns (request: HttpRequest, outcome: Reply<()>)
      modifies this
      ensures request == Post(endpoint)
      ensures outcome.Ok? <==> reply.Ok?
      ensures reply.Failed? ==> outcome == Failed(reply.message)
      ensures items == if reply.Ok? then IdList.Append(old(items), reply.value) else old(items)
      ensures loading == old(loading) && error == old(error)
    {
      request := Post(endpoint);
      match reply {
        case Ok(created) =>
          items := IdList.Append(items, created);
          outcome := Ok(());
        case Failed(message) =>
          outcome := Failed(message);
      }
    }

    /** `update`: on success every item whose id is `id` becomes the reply. */
    method Update(id: string, reply: Reply<T>) returns (request: HttpRequest, outcome: Reply<()>)
      modifies this
      ensures request == Put(ItemPath(endpoint, id))
      ensures outcome.Ok? <==> reply.Ok?
      ensures reply.Failed? ==> outcome == Failed(reply.message)
      ensures items == if reply.Ok? then IdList.ReplaceById(old(items), idOf, id, reply.value) else old(items)
      ensures loading == old(loading) && error == old(error)
    {
      request := Put(ItemPath(endpoint, id));
      match reply {
        case Ok(updated) =>
          items := IdList.ReplaceById(items, idOf, id, updated);
          outcome := Ok(());
        case Failed(message) =>
          outcome := Failed(message);
      }
    }

    /** `remove`: on success every item whose id is `id` is dropped. */
    method Remove(id: string, reply: Reply<()>) returns (request: HttpRequest, outcome: Reply<()>)
      modifies this
      ensures request == Delete(ItemPath(endpoint, id))
      ensures outcome == reply
      ensures items == if reply.Ok? then IdList.RemoveById(old(items), idOf, id) else old(items)
      ensures loading == old(loading) && error == old(error)
    {
      request := Delete(ItemPath(endpoint, id));
      if reply.Ok? {
        items := IdList.RemoveById(items, idOf, id);
      }
      outcome := reply;
    }
  }
}

=== FILE: entities.dfy ===
/** The records the dashboard shows and the requests its services send.
    The services themselves (HTTP) are not modelled: a handler returns the
    request it issued and receives the reply as a parameter. */
module Entities {

  /** Every field of a series except its server-assigned id. */
  datatype SerieInfo = SerieInfo(
    name: string,
    year: int,
    image: string,
    bigImage: string,
    openingVideo: string,
    plot: string,
    categoryId: int)

  datatype Serie = Serie(id: int, info: SerieInfo)

  datatype Category = Category(id: int, name: string)

  function SerieId(s: Serie): int { s.id }

  /** createSerie / updateSerie / deleteSerie. */
  datatype SerieRequest =
    | CreateSerie(info: SerieInfo)
    | UpdateSerie(id: int, info: SerieInfo)
    | DeleteSerie(id: int)

  /** createCategory / updateCategory / deleteCategory, with the `{ name }` body. */
  datatype CategoryRequest =
    | CreateCategory(name: string)
    | UpdateCategory(id: int, name: string)
    | DeleteCategory(id: int)
}

=== FILE: home_page.dfy ===
/** The home screen: the series list (paged four at a time), the category
    list it feeds to the forms, the series picked for deletion, and the
    shared modal state it opens and closes. */
module HomePage {
  import opened Replies
  import opened Entities
  import IdList
  import Paging
  import ModalContext

  /** `getAllSeries`: the service catches a failed request and returns `[]`. */
  function AllSeriesOrEmpty(reply: Reply<seq<Serie>>): (r: seq<Serie>)
    ensures reply.Failed? ==> r == []
    ensures reply.Ok? ==> r == reply.value
  {
    if reply.Ok? then reply.value else []
  }

  class Home {
    const modal: ModalContext.ModalProvider
    var series: seq<Serie>
    var serieDelete: Option<Serie>
    var categories: seq<Category>
    var loading: bool
    var currentPage: int

    constructor (modal: ModalContext.ModalProvider)
      ensures this.modal == modal
      ensures series == [] && serieDelete == None && categories == []
      ensures loading && currentPage == 1
    {
      this.modal := modal;
      series := [];
      serieDelete := None;
      categories := [];
      loading := true;
      currentPage := 1;
    }

    /** `Math.ceil(series.length / 4)`: the fewest pages of four that hold
        every series. */
    function TotalPages(): (pages: nat)
      reads this
      ensures |series| <= pages * Paging.SeriesPerPage
      ensures pages > 0 ==> (pages - 1) * Paging.SeriesPerPage < |series|
    {
      Paging.TotalPages(|series|, Paging.SeriesPerPage)
    }

    /** `series.slice(startIndex, startIndex + 4)`: on a page in
        [1, totalPages] the series from the page's start, one to four of
        them; past the last page nothing. */
    function CurrentItems(): (r: seq<Serie>)
      reads this
      ensures |r| <= Paging.SeriesPerPage
      ensures 1 <= currentPage <= TotalPages() ==>
                0 < |r| && r == series[(currentPage - 1) * Paging.SeriesPerPage .. Paging.Min(|series|, currentPage * Paging.SeriesPerPage)]
      ensures currentPage > TotalPages() ==> r == []
    {
      if 1 <= currentPage <= TotalPages() then
        Paging.PageItemsInRange(series, currentPage, Paging.SeriesPerPage);
        Paging.PageItems(series, currentPage, Paging.SeriesPerPage)
      else if currentPage > TotalPages() then
        Paging.PageItemsPastEnd(series, currentPage, Paging.SeriesPerPage);
        Paging.PageItems(series, currentPage, Paging.SeriesPerPage)
      else
        Paging.PageItems(series, currentPage, Paging.SeriesPerPage)
    }

    /** The page is within [1, max(1, totalPages)]. */
    ghost predicate PageInRange()
      reads this
    {
      1 <= currentPage <= Paging.Max(1, TotalPages())
    }

    /** The mount effect that loads the series: whatever `getAllSeries`
        yields (`[]` on failure) becomes the list, and loading ends. */
    method LoadSeries(reply: Reply<seq<Serie>>)
      modifies this
      ensures series == AllSeriesOrEmpty(reply)
      ensures !loading
      ensures serieDelete == old(serieDelete) && categories == old(categories)
      ensures currentPage == old(currentPage)
    {
      series := AllSeriesOrEmpty(reply);
      loading := false;
    }

    /** The mount effect that loads the categories: kept on failure. */
    method LoadCategories(reply: Reply<seq<Category>>)
      modifies this
      ensures categories == if reply.Ok? then reply.value else old(categories)
      ensures series == old(series) && serieDelete == old(serieDelete)
      ensures loading == old(loading) && currentPage == old(currentPage)
    {
      if reply.Ok? {
        categories := reply.value;
      }
    }

    /** `handleSubmit` for the series form: update when a series is bound,
        create otherwise; after a successful write the list is refetched
        (`[]` if that fetch fails); the modal is closed in every outcome. */
    method HandleSubmit(info: SerieInfo, write: Reply<()>, refetch: Reply<seq<Serie>>)
      returns (request: SerieRequest)
      modifies this, modal
      ensures request == if old(modal.editingSerie).Some?
                         then UpdateSerie(old(modal.editingSerie).value.id, info)
                         else CreateSerie(info)
      ensures series == if write.Ok? then AllSeriesOrEmpty(refetch) else old(series)
      ensures modal.modalType == ModalContext.NoModal && modal.editingSerie == None
      ensures serieDelete == old(serieDelete) && categories == old(categories)
      ensures loading == old(loading) && currentPage == old(currentPage)
    {
      if modal.editingSerie.Some? {
        request := UpdateSerie(modal.editingSerie.value.id, info);
      } else {
        request := CreateSerie(info);
      }
      if write.Ok? {
        series := AllSeriesOrEmpty(refetch);
      }
      modal.CloseModal();
    }

    /** `handleCategorySubmit`: the modal context never provides a category
        to edit, so this always creates. Only when both the create and the
        refetch succeed is the list replaced and the modal closed. */
    method HandleCategorySubmit(name: string, write: Reply<()>, refetch: Reply<seq<Category>>)
      returns (request: CategoryRequest)
      modifies this, modal
      ensures request == CreateCategory(name)
      ensures write.Ok? && refetch.Ok? ==>
                categories == refetch.value
                && modal.modalType == ModalContext.NoModal && modal.editingSerie == None
      ensures !(write.Ok? && refetch.Ok?) ==>
                categories == old(categories)
                && modal.modalType == old(modal.modalType) && modal.editingSerie == old(modal.editingSerie)
      ensures series == old(series) && serieDelete == old(serieDelete)
      ensures loading == old(loading) && currentPage == old(currentPage)
    {
      request := CreateCategory(name);
      if write.Ok? && refetch.Ok? {
        categories := refetch.value;
        modal.CloseModal();
      }
    }

    /** The edit button of a card: open the series form bound to it. */
    method EditSerie(s: Serie)
      modifies modal
      ensures modal.modalType == ModalContext.SerieModal && modal.editingSerie == Some(s)
    {
      modal.OpenModal(ModalContext.SerieModal, Some(s));
    }

    /** The delete button of a card. */
    method AskDelete(s: Serie)
      modifies this
      ensures serieDelete == Some(s)
      ensures series == old(series) && categories == old(categories)
      ensures loading == old(loading) && currentPage == old(currentPage)
    {
      serieDelete := Some(s);
    }

    /** The delete dialog's cancel. */
    method CancelDelete()
      modifies this
      ensures serieDelete == None
      ensures series == old(series) && categories == old(categories)
      ensures loading == old(loading) && currentPage == old(currentPage)
    {
      serieDelete := None;
    }

    /** `handleDeleteConfirmed(id)`: `deleteSerie` swallows its own failure,
        so the local filter always runs and the dialog always closes. */
    method HandleDeleteConfirmed(id: int) returns (request: SerieRequest)
      modifies this
      ensures request == DeleteSerie(id)
      ensures series == IdList.RemoveById(old(series), SerieId, id)
      ensures serieDelete == None
      ensures categories == old(categories)
      ensures loading == old(loading) && currentPage == old(currentPage)
    {
      request := DeleteSerie(id);
      series := IdList.RemoveById(series, SerieId, id);
      serieDelete := None;
    }

    /** `goToPrevious`: a step back unless on page 1. */
    method GoToPrevious()
      modifies this
      ensures currentPage == Paging.GuardedPrevious(old(currentPage))
      ensures old(PageInRange()) ==> PageInRange()
      ensures series == old(series) && serieDelete == old(serieDelete)
      ensures categories == old(categories) && loading == old(loading)
    {
      if currentPage > 1 {
        currentPage := currentPage - 1;
      }
    }

    /** `goToNext`: a step forward unless on the last page. */
    method GoToNext()
      modifies this
      ensures currentPage == Paging.GuardedNext(old(currentPage), old(TotalPages()))
      ensures old(PageInRange()) ==> PageInRange()
      ensures series == old(series) && serieDelete == old(serieDelete)
      ensures categories == old(categories) && loading == old(loading)
    {
      if currentPage < TotalPages() {
        currentPage := currentPage + 1;
      }
    }
  }

  /** The list is not reclamped after a delete: five series shown on page 2
      (the fifth alone), and that series deleted, leave one page while the
      screen stays on page 2, which shows nothing. */
  lemma DeleteCanStrandPage(info: SerieInfo)
    ensures var s := seq(5, i => Serie(i, info));
            var after := IdList.RemoveById(s, SerieId, 4);
            Paging.TotalPages(|s|, Paging.SeriesPerPage) == 2
            && Paging.TotalPages(|after|, Paging.SeriesPerPage) == 1
            && Paging.PageItems(after, 2, Paging.SeriesPerPage) == []
  {
    var s := seq(5, i => Serie(i, info));
    var front := s[..4];
    assert s == front + [s[4]];
    assert forall i :: 0 <= i < |front| ==> SerieId(front[i]) == i;
    IdList.RemoveConcat(front, [s[4]], SerieId, 4);
    IdList.RemoveAbsent(front, SerieId, 4);
    assert SerieId(s[4]) == 4;
    IdList.RemoveSingleton(s[4], SerieId, 4);
    var after := IdList.RemoveById(s, SerieId, 4);
    assert after == front;
    Paging.PageItemsPastEnd(after, 2, Paging.SeriesPerPage);
  }

  /** The same scenario on the screen itself: five series loaded, the second
      page opened, and the fifth series deleted leave the screen on page 2
      of a single page, showing nothing. */
  method DeleteStrandsScreen(info: SerieInfo) returns (page: int, pages: nat, shown: seq<Serie>)
    ensures page == 2 && pages == 1
    ensures page > pages && shown == []
  {
    var modal := new ModalContext.ModalProvider();
    var home := new Home(modal);
    home.LoadSeries(Ok(seq(5, i => Serie(i, info))));
    DeleteCanStrandPage(info);
    home.GoToNext();
    var _ := home.HandleDeleteConfirmed(4);
    page, pages, shown := home.currentPage, home.TotalPages(), home.CurrentItems();
  }
}

=== FILE: id_list.dfy ===
/** The three reconciliations a list screen applies to its local copy of a
    server collection once a request has succeeded: append the created
    entity, replace by id, filter out by id. Entities are compared by the id
    that `idOf` reads (`item.id === id`). */
module IdList {

  /** `[...prev, created]`. */
  function Append<T>(items: seq<T>, created: T): (r: seq<T>)
    ensures |r| == |items| + 1
    ensures r[..|items|] == items
    ensures r[|items|] == created
  {
    items + [created]
  }

  /** `prev.map(item => item.id === id ? reply : item)`. */
  function ReplaceById<T, K(==)>(items: seq<T>, idOf: T -> K, id: K, reply: T): (r: seq<T>)
    ensures |r| == |items|
    ensures forall i :: 0 <= i < |items| && idOf(items[i]) == id ==> r[i] == reply
    ensures forall i :: 0 <= i < |items| && idOf(items[i]) != id ==> r[i] == items[i]
  {
    seq(|items|, i requires 0 <= i < |items| => if idOf(items[i]) == id then reply else items[i])
  }

  /** `prev.filter(item => item.id !== id)`. */
  function RemoveById<T(==), K(==)>(items: seq<T>, idOf: T -> K, id: K): (r: seq<T>)
    ensures |r| <= |items|
    ensures forall x :: x in r ==> x in items && idOf(x) != id
    ensures forall x :: x in items && idOf(x) != id ==> x in r
  {
    if items == [] then []
    else (if idOf(items[0]) == id then [] else [items[0]]) + RemoveById(items[1..], idOf, id)
  }

  /** How many entries of `items` carry `id`. */
  function CountId<T, K(==)>(items: seq<T>, idOf: T -> K, id: K): nat
  {
    if items == [] then 0
    else (if idOf(items[0]) == id then 1 else 0) + CountId(items[1..], idOf, id)
  }

  lemma {:induction false} CountIdConcat<T, K>(a: seq<T>, b: seq<T>, idOf: T -> K, id: K)
    ensures CountId(a + b, idOf, id) == CountId(a, idOf, id) + CountId(b, idOf, id)
  {
    if a != [] {
      assert (a + b)[1..] == a[1..] + b;
      CountIdConcat(a[1..], b, idOf, id);
    } else {
      assert a + b == b;
    }
  }

  /** Filtering distributes over concatenation: the survivors of `a` come
      first, in their order, then those of `b`. With RemoveSingleton this
      pins down the order of the remaining items completely. */
  lemma {:induction false} RemoveConcat<T, K>(a: seq<T>, b: seq<T>, idOf: T -> K, id: K)
    ensures RemoveById(a + b, idOf, id) == RemoveById(a, idOf, id) + RemoveById(b, idOf, id)
  {
    if a == [] {
      assert a + b == b;
    } else {
      assert (a + b)[0] == a[0];
      assert (a + b)[1..] == a[1..] + b;
      RemoveConcat(a[1..], b, idOf, id);
    }
  }

  lemma RemoveSingleton<T, K>(x: T, idOf: T -> K, id: K)
    ensures RemoveById([x], idOf, id) == if idOf(x) == id then [] else [x]
  {
  }

  /** Removing an id no item carries leaves the list as it was. */
  lemma {:induction false} RemoveAbsent<T, K>(items: seq<T>, idOf: T -> K, id: K)
    requires forall i :: 0 <= i < |items| ==> idOf(items[i]) != id
    ensures RemoveById(items, idOf, id) == items
  {
    if items != [] {
      RemoveAbsent(items[1..], idOf, id);
    }
  }

  /** Removing twice is removing once. */
  lemma RemoveIdempotent<T, K>(items: seq<T>, idOf: T -> K, id: K)
    ensures RemoveById(RemoveById(items, idOf, id), idOf, id) == RemoveById(items, idOf, id)
  {
    var r := RemoveById(items, idOf, id);
    forall i | 0 <= i < |r| ensures idOf(r[i]) != id {
      assert r[i] in r;
    }
    RemoveAbsent(r, idOf, id);
  }

  /** Exactly the entries with `id` disappear; every other entry keeps its
      multiplicity. */
  lemma {:induction false} RemoveMultiset<T, K>(items: seq<T>, idOf: T -> K, id: K, x: T)
    ensures multiset(RemoveById(items, idOf, id))[x]
         == if idOf(x) == id then 0 else multiset(items)[x]
  {
    if items != [] {
      var head := if idOf(items[0]) == id then [] else [items[0]];
      var rest := RemoveById(items[1..], idOf, id);
      RemoveMultiset(items[1..], idOf, id, x);
      assert RemoveById(items, idOf, id) == head + rest;
      assert multiset(head + rest)[x] == multiset(head)[x] + multiset(rest)[x];
      assert items == [items[0]] + items[1..];
      assert multiset(items)[x] == multiset([items[0]])[x] + multiset(items[1..])[x];
    }
  }

  /** After a remove no entry carries the id. */
  lemma {:induction false} RemoveLeavesNone<T, K>(items: seq<T>, idOf: T -> K, id: K)
    ensures CountId(RemoveById(items, idOf, id), idOf, id) == 0
  {
    if items != [] {
      RemoveLeavesNone(items[1..], idOf, id);
      var head := if idOf(items[0]) == id then [] else [items[0]];
      CountIdConcat(head, RemoveById(items[1..], idOf, id), idOf, id);
      assert head != [] ==> head[1..] == [];
    }
  }

  /** A created entity whose id was not yet in the list appears exactly once. */
  lemma AppendCountsOnce<T, K>(items: seq<T>, idOf: T -> K, created: T)
    requires CountId(items, idOf, idOf(created)) == 0
    ensures CountId(Append(items, created), idOf, idOf(created)) == 1
  {
    CountIdConcat(items, [created], idOf, idOf(created));
    assert [created][1..] == [];
  }

  /** Removing the id of a just-created entity undoes the create, as far as
      the other ids are concerned. */
  lemma RemoveAfterAppend<T, K>(items: seq<T>, idOf: T -> K, created: T)
    ensures RemoveById(Append(items, created), idOf, idOf(created)) == RemoveById(items, idOf, idOf(created))
  {
    RemoveConcat(items, [created], idOf, idOf(created));
    RemoveSingleton(created, idOf, idOf(created));
  }

  /** Replacing by an id no item carries leaves the list as it was. */
  lemma ReplaceAbsent<T, K>(items: seq<T>, idOf: T -> K, id: K, reply: T)
    requires forall i :: 0 <= i < |items| ==> idOf(items[i]) != id
    ensures ReplaceById(items, idOf, id, reply) == items
  {
  }

  /** Replacing twice with the same reply is replacing once. */
  lemma ReplaceIdempotent<T, K>(items: seq<T>, idOf: T -> K, id: K, reply: T)
    ensures ReplaceById(ReplaceById(items, idOf, id, reply), idOf, id, reply)
         == ReplaceById(items, idOf, id, reply)
  {
  }
}

=== FILE: modal_context.dfy ===
/** The shared modal state of the home screen: which form is open and, for
    the series form, which series it edits. */
module ModalContext {
  import opened Replies
  import opened Entities

  /** `"serie" | "category" | null`. */
  datatype ModalType = NoModal | SerieModal | CategoryModal

  class ModalProvider {
    var modalType: ModalType
    var editingSerie: Option<Serie>

    /** A series is bound only while the series form is the open modal. */
    ghost predicate Valid()
      reads this
    {
      editingSerie.Some? ==> modalType == SerieModal
    }

    /** Both pieces of state start out null. */
    constructor ()
      ensures modalType == NoModal && editingSerie == None
      ensures Valid()
    {
      modalType := NoModal;
      editingSerie := None;
    }

    /** `openModal(type, data)`: the type is always taken; the series is bound
        only for the series form with data present, and cleared otherwise. */
    method OpenModal(kind: ModalType, data: Option<Serie>)
      modifies this
      ensures modalType == kind
      ensures editingSerie == if kind == SerieModal && data.Some? then data else None
      ensures Valid()
    {
      modalType := kind;
      if kind == SerieModal && data.Some? {
        editingSerie := data;
      } else {
        editingSerie := None;
      }
    }

    /** `closeModal`: both fields back to null, whatever they were, so a
        second close changes nothing. */
    method CloseModal()
      modifies this
      ensures modalType == NoModal && editingSerie == None
      ensures Valid()
    {
      modalType := NoModal;
      editingSerie := None;
    }
  }
}

=== FILE: pagination.dfy ===
/** The numbered page bar used by the series page: one button per page,
    the button of the current page disabled, nothing at all for a single page. */
module PaginationView {
  import opened Replies

  datatype PageButton = PageButton(page: int, disabled: bool)

  /** `Array.from({ length: totalPages }, (_, i) => i + 1)`. */
  function PageNumbers(totalPages: nat): (r: seq<int>)
    ensures |r| == totalPages
    ensures forall i :: 0 <= i < |r| ==> r[i] == i + 1
  {
    seq(totalPages, i => i + 1)
  }

  /** The bar for `currentPage` of `totalPages`: `None` is the `return null`
      taken when there is at most one page. */
  function Render(currentPage: int, totalPages: int): (r: Option<seq<PageButton>>)
    ensures r.None? <==> totalPages <= 1
  {
    if totalPages <= 1 then None
    else
      var pages := PageNumbers(totalPages);
      Some(seq(|pages|, i requires 0 <= i < |pages| => PageButton(pages[i], pages[i] == currentPage)))
  }

  /** What `onPageChange` receives when the `i`-th button of the bar is
      clicked: the page that button shows. */
  function Click(currentPage: int, totalPages: int, i: int): (page: int)
    requires totalPages > 1 && 0 <= i < totalPages
    ensures page == i + 1
    ensures 1 <= page <= totalPages
  {
    Render(currentPage, totalPages).value[i].page
  }

  /** The pages whose buttons are disabled, in bar order. */
  function DisabledPages(buttons: seq<PageButton>): seq<int>
  {
    if buttons == [] then []
    else (if buttons[0].disabled then [buttons[0].page] else []) + DisabledPages(buttons[1..])
  }

  /** The bar lists exactly the pages 1, 2, ..., totalPages, in order, and
      marks a button disabled exactly when it is the current page. */
  lemma RenderLayout(currentPage: int, totalPages: int)
    requires totalPages > 1
    ensures Render(currentPage, totalPages).Some?
    ensures |Render(currentPage, totalPages).value| == totalPages
    ensures forall i :: 0 <= i < totalPages ==>
              Render(currentPage, totalPages).value[i] == PageButton(i + 1, i + 1 == currentPage)
  {
  }

  /** Every button shows a page in [1, totalPages], clicking a button reports
      the page it shows, and consecutive buttons differ by one page. */
  lemma ClicksInRange(currentPage: int, totalPages: int)
    requires totalPages > 1
    ensures forall b :: b in Render(currentPage, totalPages).value ==> 1 <= b.page <= totalPages
    ensures forall i :: 0 <= i < totalPages ==> Click(currentPage, totalPages, i) == Render(currentPage, totalPages).value[i].page
    ensures forall i :: 0 <= i < totalPages - 1 ==>
              Render(currentPage, totalPages).value[i + 1].page == Render(currentPage, totalPages).value[i].page + 1
  {
  }

  /** The disabled pages of a run of buttons numbered lo, lo+1, ... are the
      current page if it falls in the run, and nothing otherwise. */
  lemma {:induction false} DisabledRun(buttons: seq<PageButton>, lo: int, currentPage: int)
    requires forall i :: 0 <= i < |buttons| ==> buttons[i] == PageButton(lo + i, lo + i == currentPage)
    ensures DisabledPages(buttons) == if lo <= currentPage < lo + |buttons| then [currentPage] else []
  {
    if buttons != [] {
      DisabledRun(buttons[1..], lo + 1, currentPage);
    }
  }

  /** With the current page in range exactly one button is disabled, the
      current page's; with it out of range none is. */
  lemma ExactlyOneDisabled(currentPage: int, totalPages: int)
    requires totalPages > 1
    ensures DisabledPages(Render(currentPage, totalPages).value)
         == if 1 <= currentPage <= totalPages then [currentPage] else []
  {
    DisabledRun(Render(currentPage, totalPages).value, 1, currentPage);
  }
}

=== FILE: paging.dfy ===
/** Pagination arithmetic shared by the series list on the home screen
    (4 per page, guarded previous/next) and the category screen (6 per page,
    clamped previous/next): the page count, the visible slice and the moves. */
module Paging {

  /** Series per page on the home screen. */
  const SeriesPerPage: nat := 4
  /** Categories per page on the category screen. */
  const CategoriesPerPage: nat := 6

  function Min(a: int, b: int): int { if a <= b then a else b }
  function Max(a: int, b: int): int { if a >= b then a else b }

  /** `Math.ceil(count / size)`: the least number of pages of `size` that
      hold `count` items. */
  function TotalPages(count: nat, size: nat): (pages: nat)
    requires size > 0
    ensures count <= pages * size
    ensures pages > 0 ==> (pages - 1) * size < count
    ensures pages == 0 <==> count == 0
  {
    var q := (count + size - 1) / size;
    assert q * size + (count + size - 1) % size == count + size - 1;
    q
  }

  /** Page `page` (1-based) holds an item iff it starts before the end of the list. */
  lemma PageWithinTotal(count: nat, size: nat, page: int)
    requires size > 0 && page >= 1
    ensures page <= TotalPages(count, size) <==> (page - 1) * size < count
  {
  }

  lemma MulMonotone(a: int, b: int, c: nat)
    requires a <= b
    ensures a * c <= b * c
  {
  }

  /** An index argument of `Array.prototype.slice`: negative counts back
      from the end, and the result lies in [0, len]. */
  function SliceIndex(i: int, len: nat): (r: nat)
    ensures r <= len
    ensures 0 <= i <= len ==> r == i
    ensures i > len ==> r == len
    ensures i < 0 ==> r == Max(len + i, 0)
  {
    if i < 0 then (if len + i < 0 then 0 else len + i)
    else if i > len then len
    else i
  }

  /** `s.slice(start, end)`: empty when the clipped end is not past the clipped start. */
  function JsSlice<T>(s: seq<T>, start: int, end: int): (r: seq<T>)
    ensures |r| <= |s|
    ensures SliceIndex(start, |s|) < SliceIndex(end, |s|) ==> r == s[SliceIndex(start, |s|)..SliceIndex(end, |s|)]
    ensures SliceIndex(end, |s|) <= SliceIndex(start, |s|) ==> r == []
  {
    var from, to := SliceIndex(start, |s|), SliceIndex(end, |s|);
    if from < to then s[from..to] else []
  }

  /** The items shown on page `page`: `items.slice((page - 1) * size, page * size)`
      (the home screen writes the end as `startIndex + itemsPerPage`, the same number). */
  function PageItems<T>(items: seq<T>, page: int, size: nat): (r: seq<T>)
    requires size > 0
    ensures |r| <= size
    ensures forall x :: x in r ==> x in items
  {
    JsSlice(items, (page - 1) * size, page * size)
  }

  /** A page in [1, totalPages] shows the items from its start up to the next
      page's start or the end of the list, at least one and at most `size`. */
  lemma PageItemsInRange<T>(items: seq<T>, page: int, size: nat)
    requires size > 0 && 1 <= page <= TotalPages(|items|, size)
    ensures PageItems(items, page, size) == items[(page - 1) * size .. Min(|items|, page * size)]
    ensures 0 < |PageItems(items, page, size)| <= size
  {
    PageWithinTotal(|items|, size, page);
    MulMonotone(1, page, size);
  }

  /** A page past the last one shows nothing. */
  lemma PageItemsPastEnd<T>(items: seq<T>, page: int, size: nat)
    requires size > 0 && page > TotalPages(|items|, size)
    ensures PageItems(items, page, size) == []
  {
    PageWithinTotal(|items|, size, page);
    MulMonotone(page - 1, page, size);
  }

  /** Page 0 (reachable on the category screen) shows nothing: its end index is 0. */
  lemma PageItemsPageZero<T>(items: seq<T>, size: nat)
    requires size > 0
    ensures PageItems(items, 0, size) == []
  {
  }

  /** Consecutive pages cover the list without overlap. */
  lemma {:induction false} PagesCover<T>(items: seq<T>, size: nat, pages: nat)
    requires size > 0 && pages <= TotalPages(|items|, size)
    ensures Concat(items, size, pages) == items[..Min(|items|, pages * size)]
  {
    if pages > 0 {
      PagesCover(items, size, pages - 1);
      PageItemsInRange(items, pages, size);
      PageWithinTotal(|items|, size, pages);
      assert (pages - 1) * size == pages * size - size;
      var lo := (pages - 1) * size;
      var hi := Min(|items|, pages * size);
      assert items[..lo] + items[lo..hi] == items[..hi];
    }
  }

  /** The first `pages` pages, one after another. */
  function Concat<T>(items: seq<T>, size: nat, pages: nat): seq<T>
    requires size > 0
  {
    if pages == 0 then [] else Concat(items, size, pages - 1) + PageItems(items, pages, size)
  }

  /** All pages together are the whole list, in order. */
  lemma AllPagesAreTheList<T>(items: seq<T>, size: nat)
    requires size > 0
    ensures Concat(items, size, TotalPages(|items|, size)) == items
  {
    PagesCover(items, size, TotalPages(|items|, size));
  }

  // ---- previous / next ----

  datatype Move = Previous | Next

  /** Home `goToPrevious`: `if (currentPage > 1) currentPage - 1`. */
  function GuardedPrevious(page: int): (r: int)
    ensures page > 1 ==> r == page - 1
    ensures page <= 1 ==> r == page
  {
    if page > 1 then page - 1 else page
  }

  /** Home `goToNext`: `if (currentPage < totalPages) currentPage + 1`. */
  function GuardedNext(page: int, totalPages: int): (r: int)
    ensures page < totalPages ==> r == page + 1
    ensures page >= totalPages ==> r == page
  {
    if page < totalPages then page + 1 else page
  }

  /** Category `Anterior`: `Math.max(p - 1, 1)`. (Its button is disabled at
      page 1, where the handler would leave the page at 1 anyway.) */
  function ClampedPrevious(page: int): (r: int)
    ensures r >= 1
    ensures page > 1 ==> r == page - 1
    ensures page <= 1 ==> r == 1
  {
    Max(page - 1, 1)
  }

  /** Category `Próxima`: `Math.min(p + 1, totalPages)`. (Its button is
      disabled at `totalPages`, where the handler would leave the page anyway.) */
  function ClampedNext(page: int, totalPages: int): (r: int)
    ensures r <= totalPages
    ensures page < totalPages ==> r == page + 1
    ensures page >= totalPages ==> r == totalPages
  {
    Min(page + 1, totalPages)
  }

  /** The page reached from `page` by the home screen's buttons. */
  function GuardedWalk(page: int, totalPages: int, moves: seq<Move>): int
    decreases |moves|
  {
    if moves == [] then page
    else
      var p := if moves[0] == Previous then GuardedPrevious(page) else GuardedNext(page, totalPages);
      GuardedWalk(p, totalPages, moves[1..])
  }

  /** The page reached from `page` by the category screen's buttons. */
  function ClampedWalk(page: int, totalPages: int, moves: seq<Move>): int
    decreases |moves|
  {
    if moves == [] then page
    else
      var p := if moves[0] == Previous then ClampedPrevious(page) else ClampedNext(page, totalPages);
      ClampedWalk(p, totalPages, moves[1..])
  }

  /** On an unchanged list, any sequence of home-screen moves from a page in
      [1, max(1, totalPages)] stays in that range. */
  lemma {:induction false} GuardedWalkInRange(page: int, totalPages: nat, moves: seq<Move>)
    requires 1 <= page <= Max(1, totalPages)
    ensures 1 <= GuardedWalk(page, totalPages, moves) <= Max(1, totalPages)
    decreases |moves|
  {
    if moves != [] {
      var p := if moves[0] == Previous then GuardedPrevious(page) else GuardedNext(page, totalPages);
      GuardedWalkInRange(p, totalPages, moves[1..]);
    }
  }

  /** With at least one page, any sequence of category-screen moves from a
      page in [1, totalPages] stays in that range. */
  lemma {:induction false} ClampedWalkInRange(page: int, totalPages: nat, moves: seq<Move>)
    requires 1 <= page <= totalPages
    ensures 1 <= ClampedWalk(page, totalPages, moves) <= totalPages
    decreases |moves|
  {
    if moves != [] {
      var p := if moves[0] == Previous then ClampedPrevious(page) else ClampedNext(page, totalPages);
      ClampedWalkInRange(p, totalPages, moves[1..]);
    }
  }

  /** With an empty category list (0 pages) the next button is enabled on
      page 1 and takes the screen to page 0; previous brings it back to 1. */
  lemma EmptyListNextGivesPageZero()
    ensures TotalPages(0, CategoriesPerPage) == 0
    ensures ClampedNext(1, TotalPages(0, CategoriesPerPage)) == 0
    ensures ClampedPrevious(0) == 1
  {
  }

  /** On an empty category list every walk from page 1 stays in {0, 1}. */
  lemma {:induction false} ClampedWalkEmpty(page: int, moves: seq<Move>)
    requires 0 <= page <= 1
    ensures 0 <= ClampedWalk(page, 0, moves) <= 1
    decreases |moves|
  {
    if moves != [] {
      var p := if moves[0] == Previous then ClampedPrevious(page) else ClampedNext(page, 0);
      ClampedWalkEmpty(p, moves[1..]);
    }
  }

  /** Ten series make three pages of four; next on page 3 stays on page 3. */
  lemma TenSeriesScenario()
    ensures TotalPages(10, SeriesPerPage) == 3
    ensures GuardedNext(3, TotalPages(10, SeriesPerPage)) == 3
  {
  }
}

=== FILE: protected_route.dfy ===
/** The route gate in front of every protected screen, and what it shows
    over the authentication session across page loads, logins and logouts. */
module ProtectedRoute {
  import opened Replies
  import opened AuthContext

  /** A neutral placeholder, the protected outlet, or a navigation. */
  datatype GateView = Placeholder | Outlet | Redirect(to: string, replace: bool)

  const LoginRoute := "/login"

  /** `ProtectedRoute`: a placeholder while loading, else the outlet for a
      truthy token and a replacing redirect to the login route otherwise. */
  function Gate(loading: bool, token: Option<string>): (v: GateView)
    ensures loading ==> v == Placeholder
    ensures v.Outlet? <==> !loading && Truthy(token)
    ensures v.Redirect? <==> !loading && !Truthy(token)
    ensures v.Redirect? ==> v.to == LoginRoute && v.replace
  {
    if loading then Placeholder
    else if Truthy(token) then Outlet
    else Redirect(LoginRoute, true)
  }

  /** A page load over the persisted session store: the gate before the
      restore effect has run, and after. It never redirects while loading;
      afterwards it shows the outlet exactly when both a token and a user
      are stored (an unparseable user still leaves the token set). */
  method PageLoad(session: map<string, string>, authHeader: Option<string>, parseUser: string -> Option<User>)
    returns (whileLoading: GateView, settled: GateView)
    ensures whileLoading == Placeholder
    ensures settled == Outlet <==> Truthy(Lookup(session, JwtKey)) && Truthy(Lookup(session, UserKey))
    ensures settled != Outlet ==> settled == Redirect(LoginRoute, true)
  {
    var auth := new AuthProvider(session, authHeader);
    whileLoading := Gate(auth.loading, auth.token);
    auth.RestoreSession(parseUser);
    settled := Gate(auth.loading, auth.token);
  }

  /** A login followed by a page load restores the same token and user,
      and the gate lets the user through, as long as `parseUser` reads back
      what `stringify` wrote and both stored strings are non-empty. The page
      load keeps only the session store: the client's token lived in memory. */
  method LoginThenReload(
    session: map<string, string>, authHeader: Option<string>,
    email: string, password: string, reply: LoginReply,
    stringify: User -> string, parseUser: string -> Option<User>)
    returns (token: Option<string>, user: Option<User>, settled: GateView)
    requires reply.token != "" && stringify(reply.user) != ""
    requires parseUser(stringify(reply.user)) == Some(reply.user)
    ensures token == Some(reply.token) && user == Some(reply.user)
    ensures settled == Outlet
  {
    var first := new AuthProvider(session, authHeader);
    first.RestoreSession(parseUser);
    var _, _ := first.Login(email, password, Ok(reply), stringify);
    var second := new AuthProvider(first.session, None);
    second.RestoreSession(parseUser);
    token, user := second.token, second.user;
    settled := Gate(second.loading, second.token);
  }

  /** A logout followed by a page load (which keeps only the session store)
      sends the user to the login route, whatever the session held before. */
  method LogoutThenReload(session: map<string, string>, authHeader: Option<string>, parseUser: string -> Option<User>)
    returns (settled: GateView)
    ensures settled == Redirect(LoginRoute, true)
  {
    var first := new AuthProvider(session, authHeader);
    first.RestoreSession(parseUser);
    first.Logout();
    var second := new AuthProvider(first.session, None);
    second.RestoreSession(parseUser);
    settled := Gate(second.loading, second.token);
  }
}

=== FILE: replies.dfy ===
/** Outcomes of the requests the dashboard issues, and JavaScript truthiness
    of the nullable strings it keeps (tokens, stored session entries). */
module Replies {

  datatype Option<+T> = None | Some(value: T)

  /** What an awaited request settles to: the server's reply, or the error
      the await throws (its message). */
  datatype Reply<+T> = Ok(value: T) | Failed(message: string)

  /** `s` used as a condition: `null` and the empty string are falsy. */
  predicate Truthy(s: Option<string>): (b: bool)
    ensures b <==> s != None && s != Some("")
  {
    s.Some? && s.value != ""
  }

  /** `sessionStorage.getItem(key)`: the stored string, or null. */
  function Lookup(store: map<string, string>, key: string): (r: Option<string>)
    ensures r.Some? <==> key in store
    ensures r.Some? ==> r.value == store[key]
  {
    if key in store then Some(store[key]) else None
  }
}

=== FILE: series_page.dfy ===
/** The series page: one server page of series at a time (limit 6), the
    page count derived from the server's total, and the create/edit modal
    (shown, edit mode, selected series). */
module SeriesPage {
  import opened Replies
  import opened Entities
  import Paging

  /** `getSeries(page, limit)`: the page's series and the server's total
      (`json.series || []`, `json.totalCount || 0`). */
  datatype SeriesReply = SeriesReply(data: seq<Serie>, total: nat)

  datatype PageRequest = PageRequest(page: int, limit: int)

  /** Series per server page (`limit`). */
  const Limit: nat := 6

  class SeriesScreen {
    var series: seq<Serie>
    var currentPage: int
    var totalPages: nat
    var showModal: bool
    var editMode: bool
    var selectedSerie: Option<Serie>

    /** Edit mode always has a series to edit. */
    ghost predicate Valid()
      reads this
    {
      editMode ==> selectedSerie.Some?
    }

    constructor ()
      ensures series == [] && currentPage == 1 && totalPages == 1
      ensures !showModal && !editMode && selectedSerie == None
      ensures Valid()
    {
      series := [];
      currentPage := 1;
      totalPages := 1;
      showModal := false;
      editMode := false;
      selectedSerie := None;
    }

    /** `fetchSeries`: the current page is requested; a reply replaces the
        series and sets `totalPages` to `ceil(total / 6)`; a failure keeps both. */
    method FetchSeries(reply: Reply<SeriesReply>) returns (request: PageRequest)
      modifies this
      ensures request == PageRequest(old(currentPage), Limit)
      ensures reply.Ok? ==> series == reply.value.data
                            && totalPages == Paging.TotalPages(reply.value.total, Limit)
      ensures reply.Failed? ==> series == old(series) && totalPages == old(totalPages)
      ensures currentPage == old(currentPage) && showModal == old(showModal)
      ensures editMode == old(editMode) && selectedSerie == old(selectedSerie)
    {
      request := PageRequest(currentPage, Limit);
      if reply.Ok? {
        series := reply.value.data;
        totalPages := Paging.TotalPages(reply.value.total, Limit);
      }
    }

    /** `onPageChange(page)`: a different page is stored and, through the
        effect on `currentPage`, fetched; the same page changes nothing. */
    method ChangePage(page: int, reply: Reply<SeriesReply>) returns (request: Option<PageRequest>)
      modifies this
      ensures page == old(currentPage) ==>
                request == None && series == old(series) && totalPages == old(totalPages)
      ensures page != old(currentPage) ==>
                request == Some(PageRequest(page, Limit))
                && (reply.Ok? ==> series == reply.value.data
                                  && totalPages == Paging.TotalPages(reply.value.total, Limit))
                && (reply.Failed? ==> series == old(series) && totalPages == old(totalPages))
      ensures currentPage == page
      ensures showModal == old(showModal) && editMode == old(editMode) && selectedSerie == old(selectedSerie)
    {
      if page == currentPage {
        request := None;
      } else {
        currentPage := page;
        var r := FetchSeries(reply);
        request := Some(r);
      }
    }

    /** `handleEdit(serie)`: open the modal in edit mode on that series. */
    method HandleEdit(s: Serie)
      modifies this
      ensures selectedSerie == Some(s) && editMode && showModal
      ensures series == old(series) && currentPage == old(currentPage) && totalPages == old(totalPages)
      ensures Valid()
    {
      selectedSerie := Some(s);
      editMode := true;
      showModal := true;
    }

    /** "Nova Série": open the modal for a new series. */
    method NewSerie()
      modifies this
      ensures selectedSerie == None && !editMode && showModal
      ensures series == old(series) && currentPage == old(currentPage) && totalPages == old(totalPages)
      ensures Valid()
    {
      selectedSerie := None;
      editMode := false;
      showModal := true;
    }

    /** `handleCloseModal`: reset the modal state and refetch the current page. */
    method HandleCloseModal(reply: Reply<SeriesReply>) returns (request: PageRequest)
      modifies this
      ensures selectedSerie == None && !editMode && !showModal
      ensures request == PageRequest(old(currentPage), Limit)
      ensures reply.Ok? ==> series == reply.value.data
                            && totalPages == Paging.TotalPages(reply.value.total, Limit)
      ensures reply.Failed? ==> series == old(series) && totalPages == old(totalPages)
      ensures currentPage == old(currentPage)
      ensures Valid()
    {
      selectedSerie := None;
      editMode := false;
      showModal := false;
      request := FetchSeries(reply);
    }
  }
}
